=== FILE: README.md ===
# MagicPhotoBot entitlement core in Dafny

A Dafny model of the three pieces of the MagicPhotoBot Telegram bot that hold its
usage accounting and its request logic:

- **The Telegram Stars ledger** (`payments/stars_v3.py`). This is the `users` table with
  credits, the total of stars paid for credit packs and the end of a 24-hour unlimited
  window. It covers the operations on that table (`_get_user`, `add_credits`,
  `set_unlimited_day`, `has_unlimited`, `spend_credit`, `get_balance`), the `PACKS`
  table, the `stars::<key>::v1` invoice payload, and how a successful payment is settled.
  This is module `Stars` in `stars.dfy`. Python's `str.split("::")` and `"::".join` are in
  `PyStr` (`pystr.dfy`).
- **The free-usage limiter** (`limiter.py`, `FreeUsageLimiter`). It keeps per-user counts
  in a `defaultdict` and a process-wide total. This is module `FreeUsage` in
  `limiter.dfy`.
- **The Replicate request body** built in `animate_photo_via_replicate`
  (`processing.py`). This is module `ReplicatePayload` in `processing.dfy`. Python's
  `int()` on strings is in `PyInt` (`pyint.dfy`). `Wrappers` (`wrappers.dfy`) holds
  `Option`.

The style is functional. The SQLite table is an immutable `map<int, Account>`. An SQL
`UPDATE ... WHERE user_id = ?` on a user with no row changes nothing. `time.time()` is
a parameter `now` in whole seconds. `os.getenv` values and `REPLICATE_INPUT_KEY` are
parameters. Calls that go through `_get_user` insert a default row for an unseen user,
so they return the new table along with their answer.

`int()` is modelled as a simplified decimal parser, not as an abstract partial
function. It ignores surrounding ASCII whitespace (space and tab to carriage return,
but not the separators 0x1C-0x1F) and accepts an optional `+`/`-` sign followed by one
to 4300 ASCII digits, CPython's default digit limit. Anything else is a parse failure
(`None`).

`spend_credit` checks the unlimited window and then debits one credit at once; there is
no separate reservation step in `payments/stars_v3.py`. The free
quota is a separate in-memory counter in `limiter.py`, not part of the ledger. No
account is locked.

`FreeUsage.UsersCount` and `FreeUsage.TotalCount` model the limiter's two accessors. They
have no rows of their own. Their properties are stated in `FreeUsage.ReplayInvariant`,
`FreeUsage.UsersCountMonotone` and `FreeUsage.QueriedUserIsCounted`.

## Model

| member | source | states |
|---|---|---|
| `Stars.GetUser` | payments/stars_v3.py:32-39 | An unknown user gets a new all-zero row, and those zeros are returned. A known user's row is returned and the table is unchanged. |
| `Stars.GetUserIdempotent` | payments/stars_v3.py:32-39 | Reading a user a second time finds the row the first read created and changes nothing more. |
| `Stars.AddCredits` | payments/stars_v3.py:41-47 | Credits grow by exactly `amount` and the stars topup total by exactly `stars_paid`. The row is created first if missing. The window and every other row are unchanged, and no row disappears. |
| `Stars.AddCreditsAdditive` | payments/stars_v3.py:41-47 | Two top-ups equal one top-up of their sums. |
| `Stars.SetUnlimitedDay` | payments/stars_v3.py:49-52 | For an existing user the window ends at `now + hours*3600`. For a user with no row the table is unchanged, because no `_get_user` runs before the `UPDATE`. |
| `Stars.UnlimitedWindow` | payments/stars_v3.py:49-56 | After `set_unlimited_day` on an existing user, `has_unlimited` at any time `t` is true iff `t < now + hours*3600`. |
| `Stars.HasUnlimited` | payments/stars_v3.py:54-56 | True iff `now` is strictly before the stored window end (0 for an unseen user). The table afterwards is the one `_get_user` leaves. |
| `Stars.FreshUserNotUnlimited` | payments/stars_v3.py:54-56 | A user with no row is never unlimited at any `now >= 0`. |
| `Stars.SpendCredit` | payments/stars_v3.py:58-67 | Unlimited is checked first: it answers true and leaves the balance alone. Otherwise a positive balance drops by exactly one and the answer is true. Otherwise the answer is false and the balance is unchanged. Only this user's row may change. |
| `Stars.SpendUndoesSingleCredit` | payments/stars_v3.py:58-71 | Outside a window and from a non-negative balance, spending right after a one-credit top-up succeeds and `get_balance` is back to its earlier value: a debit is exactly one credit. |
| `Stars.GetBalance` | payments/stars_v3.py:69-71 | Returns the stored credits (0 for an unseen user, who gets a row). |
| `Stars.InvoicePayload` | payments/stars_v3.py:104 | The invoice payload is the key framed by the fixed prefix `stars::` and the suffix `::v1`, 11 characters longer than the key. |
| `Stars.PayloadPackKey` | payments/stars_v3.py:161-167 | The unpacked key never contains `::`. With three parts the payload is `<prefix>::<key>::<version>`. With any other part count the key is `buy_1`. |
| `Stars.SettledPack` | payments/stars_v3.py:164-168 | The pack a payment settles as is always one of the `PACKS` entries. A key that is not in `PACKS` gives `buy_1`. |
| `Stars.PayloadRoundTrip` | payments/stars_v3.py:104 | Any key without a colon, put into `stars::<key>::v1`, is recovered by the handler's split on `::`. |
| `Stars.EveryPackRoundTrips` | payments/stars_v3.py:92-104 | Each of `buy_1`, `buy_5`, `buy_day` settles as its own pack when paid through its own invoice payload. |
| `Stars.SettledPackOfParts` | payments/stars_v3.py:164-168 | A payload that does not split into exactly three parts settles as `buy_1`. With three parts only the middle one counts: prefix and version are never checked, and an unknown middle part gives `buy_1`. |
| `Stars.MalformedPayloadFallsBack` | payments/stars_v3.py:164-168 | Any payload that does not split on `::` into exactly three parts settles as `buy_1`, with no error. |
| `Stars.MissingPayloadIsSingleCredit` | payments/stars_v3.py:161-168 | A payment with no payload (`None` read as `""`) settles as `buy_1`. |
| `Stars.SettlePayment` | payments/stars_v3.py:160-174 | The day pass acts as `set_unlimited_day` for 24 hours and adds no credits or stars. A credit pack adds its `credits` and the stars actually paid, leaving the window alone. |
| `Stars.SettleCreditPack` | payments/stars_v3.py:169-174 | Paying for `buy_1` adds exactly 1 credit and paying for `buy_5` exactly 5. Both add the paid star amount to the topup total. |
| `Stars.SettleDayPassExistingUser` | payments/stars_v3.py:169-171 | For a user with a row, the day pass leaves credits and topup total as they were. At any time `t`, `has_unlimited` is then true iff `t < now + 86400`: the window ends at `now + 86400`. |
| `Stars.DayPassLostForNewUser` | payments/stars_v3.py:49-52 | As written, a user with no row who pays for the day pass gets no row and no window, even at the moment of payment. |
| `Stars.SetUnlimitedDayCorrected` | payments/stars_v3.py:49-52 | The corrected window setter fetches or creates the row first. Every user then has the window with their credits and topup total kept. |
| `Stars.SettlePaymentCorrected` | payments/stars_v3.py:160-174 | Settlement with the corrected day pass: the payer's row always gets the 24-hour window. Credit packs settle exactly as `SettlePayment`. |
| `Stars.DayPassGrantsWindow` | payments/stars_v3.py:169-171 | With the correction, any payer of the day pass is unlimited throughout `[now, now + 86400)` and keeps their credits. |
| `Stars.StepKeepsCreditsNonNegative` | payments/stars_v3.py:41-71 | No single ledger call or settlement makes a balance negative, provided a direct top-up amount is non-negative. |
| `Stars.RunKeepsCreditsNonNegative` | payments/stars_v3.py:58-67 | Start from non-negative balances and run any sequence of calls whose top-ups are non-negative. No balance ever goes negative, with the day pass as written or corrected. |
| `PyStr.Split` | payments/stars_v3.py:165 | `payload.split("::")` gives at least one part. No part contains `::`. Joining the parts with `::` gives back the payload. Every cut is at the leftmost separator, so no part but the last ends in `:`. Together these determine the parts. |
| `PyStr.SplitFourColons` | payments/stars_v3.py:165 | `"::::"` splits into three empty parts, the leftmost cuts, so as a payload it has three parts. |
| `PyStr.SplitJoin` | payments/stars_v3.py:165 | Colon-free parts are recovered exactly by splitting their `::` join. |
| `PyInt.ParseInt` | processing.py:22-26 | `int(text)` succeeds iff the text stripped of ASCII whitespace is `[+-]?` followed by 1 to 4300 digits. The value is the one the digits denote, negated exactly for a leading `-`. |
| `PyInt.ParseShowInt` | processing.py:24 | Every integer written in decimal with at most 4300 digits parses back to itself. |
| `PyInt.TooManyDigitsRejected` | processing.py:22-26 | A run of more than 4300 digits is a `ValueError`, whatever its value. |
| `PyInt.SeparatorIsNotSpace` | processing.py:22-26 | A 0x1C separator in front of the text is not skipped as whitespace: `int()` fails. |
| `PyInt.ParseIgnoresLeadingSpace` | processing.py:24 | Leading whitespace never changes what `int()` returns. |
| `FreeUsage.New` | limiter.py:5-8 | A new limiter has every count at 0, no known users and a total of 0. |
| `FreeUsage.CanUse` | limiter.py:10-12 | True iff the user's count is strictly below `max_free`. No count and not the total changes, but the user joins the key set (the `defaultdict` insertion). |
| `FreeUsage.MarkUsed` | limiter.py:14-17 | The user's count and the total each grow by exactly 1. Every other user's count is unchanged. |
| `FreeUsage.NewValid` | limiter.py:5-8 | A new limiter's total equals the sum of its (no) counts. |
| `FreeUsage.CanUseKeepsValid` | limiter.py:7-12 | `can_use` keeps the total equal to the sum of all per-user counts. |
| `FreeUsage.MarkUsedKeepsValid` | limiter.py:14-17 | `mark_used` keeps the total equal to the sum of all per-user counts. |
| `FreeUsage.ReplayInvariant` | limiter.py:5-25 | After any history of calls, each count is that user's number of `mark_used` calls. `total_count()` is the number of all `mark_used` calls and equals the sum of the counts. `users_count()` is the number of distinct users passed to `can_use` or `mark_used`. |
| `FreeUsage.UsersCountMonotone` | limiter.py:19-21 | `users_count()` never decreases, whatever call comes next. |
| `FreeUsage.QueriedUserIsCounted` | limiter.py:10-21 | A user who was only asked about by `can_use` already counts in `users_count()`, while `total_count()` stays 0. |
| `FreeUsage.OneFreeUse` | limiter.py:5-17 | With the default `max_free = 1`, after any history `can_use(u)` holds iff `mark_used(u)` was never called. |
| `FreeUsage.DefaultAdmitsOnce` | limiter.py:5-17 | With the default quota a fresh user is admitted, and after one `mark_used` is refused. |
| `ReplicatePayload.ParsedSetting` | processing.py:22-26 | A `WAN_*` integer setting yields a number iff it is non-empty and, stripped of ASCII whitespace (not 0x1C-0x1F), is a decimal literal of at most 4300 digits. The number is then `int()`'s value. A failure yields nothing and never an error. |
| `ReplicatePayload.BuildPayload` | processing.py:11-33 | `version` is the model. The input key is always present. No key other than the input key, `prompt`, `resolution`, `duration` and `seed` is ever added. |
| `ReplicatePayload.ImageUrlField` | processing.py:11-31 | The input key holds the source image URL unless a later optional field with the same name overwrote it. |
| `ReplicatePayload.PromptField` | processing.py:18-19 | `prompt` is present iff a non-empty prompt was given (or it is the input key). Its value is then that prompt. |
| `ReplicatePayload.ResolutionField` | processing.py:20-21 | `resolution` is present iff `WAN_RESOLUTION` is non-empty (or it is the input key). The string is copied verbatim. |
| `ReplicatePayload.DurationField` | processing.py:22-26 | `duration` is present iff `WAN_DURATION` is non-empty and parses (or it is the input key). It holds the parsed integer. |
| `ReplicatePayload.SeedField` | processing.py:27-31 | `seed` is present iff `WAN_SEED` is non-empty and parses (or it is the input key). It holds the parsed integer. |
| `ReplicatePayload.BuildPayloadMatchesExpected` | processing.py:11-31 | On every key, the input dict agrees with a field-by-field reference reading. |
| `ReplicatePayload.OptionalFieldsIndependent` | processing.py:11-31 | Changing the source of one optional field changes no entry except that field's own key. |
| `ReplicatePayload.PrintedDurationArrives` | processing.py:22-26 | A `WAN_DURATION` written as a decimal integer of at most 4300 digits arrives in the body as exactly that integer. |
| `ReplicatePayload.LongDurationLeftOut` | processing.py:22-26 | When the input key is not `duration`, a `WAN_DURATION` of more than 4300 digits is left out of the body, and no error is raised. |
| `ReplicatePayload.UnparsableDurationLeftOut` | processing.py:22-26 | When the input key is not `duration`, a `WAN_DURATION` of `5s` is left out of the body, and no error is raised. |
| `ReplicatePayload.MinimalPayload` | processing.py:11-33 | With no prompt and all three settings empty, the input dict holds only the image URL. |

## Findings

| source | as written | input that shows it | evidently intended | confidence | as-written member | corrected member |
|---|---|---|---|---|---|---|
| payments/stars_v3.py:49-52 | `set_unlimited_day` runs only an `UPDATE`. The day-pass branch of the payment handler (lines 169-171) calls it without `_get_user`. For a user with no row the update matches nothing, yet the reply still says the day pass was activated. | A user who has never used `/balance` or spent a credit buys the day pass. The payload is `stars::buy_day::v1`, with 1200 stars paid into an empty table. | The window `[now, now + 86400)` opens for the payer, as for every other purchase, which creates the row through `add_credits`. | high; not executed | `Stars.DayPassLostForNewUser` | `Stars.SettlePaymentCorrected` |

`Stars.SetUnlimitedDay` and `Stars.SettlePayment` model the code as written.
`Stars.DayPassLostForNewUser` proves the failure for every table without the user.
`Stars.SetUnlimitedDayCorrected` and `Stars.SettlePaymentCorrected` add the missing
`_get_user`, and `Stars.DayPassGrantsWindow` proves the intended window for every user.
`Stars.Run` takes a flag that chooses which settlement it uses.
`Stars.RunKeepsCreditsNonNegative` holds for both.

## Left out

- The aiogram router, handlers, keyboards (`buy_menu_kb`, `_buy_packs_kb`), `_send_stars_invoice` and pre-checkout answering are left out. They are chat transport and UI. The reply texts and the `XTR` currency are left out too.
- The SQLite connection, cursor, `commit` and `os.makedirs` are left out. The table is an in-memory map, and its durability is not modelled.
- `Stars.AddCredits`: does not model SQLite's 64-bit `INTEGER` range. Python integers are unbounded, and the model uses unbounded integers as well.
- `Stars.GetBalance`: the `or 0` fallbacks for `NULL` columns are not modelled. The code never writes `NULL`, so every modelled row has integer columns.
- `time.time()` is a parameter in whole seconds. The code truncates it with `int()`.
- Concurrency is left out. Ledger updates have no locking, and the aiogram event loop is not modelled. Every call is one atomic step on the map.
- `PyInt.ParseInt`: a simplified `int()`. It does not accept underscores between digits (`1_000`), non-ASCII digits or non-ASCII whitespace, which Python's `int()` accepts. A setting that uses them is treated as a parse failure here. The digit limit is fixed at CPython's default of 4300: a limit changed through `PYTHONINTMAXSTRDIGITS` or `sys.set_int_max_str_digits`, and Python versions without the limit, are not modelled.
- The rest of `animate_photo_via_replicate` is left out. This covers the network call to Replicate, polling, the source of `model` (the elided code and `model_override`), and the value of `REPLICATE_INPUT_KEY`. The key is a parameter, and the properties that depend on it say so.
- The key order of the request dict is not modelled, because maps are unordered.
- The Replicate client, the polling of a prediction, fetching its result and any retry with another model are not part of this model. Only the request body is.
- `app.py` is a transport fragment. Its only logic, replacing an empty caption with a fixed prompt, is not modelled.
- `tests/smoke_test.py` is left out. It only checks imports and the bot-token shape.

=== FILE: limiter.dfy ===
/**
 `FreeUsageLimiter`: an in-process counter of free renders per user plus a
 process-wide total of renders.

 The per-user counts live in a `defaultdict(int)`, so merely reading the count of an
 unseen user (as `can_use` does) inserts a 0 entry for that user. The model keeps the
 key set explicitly, which is why `UsersCount` counts users who were only asked about.
 */
module FreeUsage {

  type UserId = int

  /** The limiter's three attributes: `max_free`, `_usage` and `_total`. */
  datatype Limiter = Limiter(maxFree: int, usage: map<UserId, nat>, total: int)

  /** The default of the constructor's `max_free` argument. */
  const DefaultMaxFree: int := 1

  /** The count `_usage[u]` reads: the stored one, or the default 0. */
  function Count(l: Limiter, u: UserId): nat {
    if u in l.usage then l.usage[u] else 0
  }

  /** `FreeUsageLimiter(max_free)`: nobody has used anything and no user is known. */
  function New(maxFree: int): (l: Limiter)
    ensures l.maxFree == maxFree
    ensures forall u :: Count(l, u) == 0
    ensures UsersCount(l) == 0 && TotalCount(l) == 0
  {
    Limiter(maxFree, map[], 0)
  }

  /**
   `can_use`: true exactly when the user's count is strictly below `max_free`. No count and
   not the total change, but the user joins the key set.
   */
  function CanUse(l: Limiter, u: UserId): (r: (Limiter, bool))
    ensures r.1 <==> Count(l, u) < l.maxFree
    ensures r.0.maxFree == l.maxFree && r.0.total == l.total
    ensures forall v :: Count(r.0, v) == Count(l, v)
    ensures r.0.usage.Keys == l.usage.Keys + {u}
  {
    var usage := if u in l.usage then l.usage else l.usage[u := 0];
    (l.(usage := usage), usage[u] < l.maxFree)
  }

  /** `mark_used`: the user's count and the total each grow by exactly one; nobody else's count moves. */
  function MarkUsed(l: Limiter, u: UserId): (r: Limiter)
    ensures r.maxFree == l.maxFree
    ensures Count(r, u) == Count(l, u) + 1
    ensures r.total == l.total + 1
    ensures forall v :: v != u ==> Count(r, v) == Count(l, v)
    ensures r.usage.Keys == l.usage.Keys + {u}
  {
    l.(usage := l.usage[u := Count(l, u) + 1], total := l.total + 1)
  }

  /** `users_count`: the number of keys of `_usage`. */
  function UsersCount(l: Limiter): nat {
    |l.usage|
  }

  /** `total_count`. */
  function TotalCount(l: Limiter): int {
    l.total
  }

  // ---------------------------------------------------------------------------
  // The total is the sum of the per-user counts
  // ---------------------------------------------------------------------------

  /** A map with a positive size has a key. */
  lemma MapHasKey(m: map<UserId, nat>)
    requires |m| > 0
    ensures exists k :: k in m
  {
    if forall k :: k !in m {
      assert false;
    }
  }

  /** The sum of all values of `m`. */
  ghost function SumCounts(m: map<UserId, nat>): nat
    decreases |m|
  {
    if |m| == 0 then 0
    else
      MapHasKey(m);
      var k :| k in m;
      m[k] + SumCounts(m - {k})
  }

  /** The sum can be taken apart at any key, not only at the one its definition picks. */
  lemma {:induction false} SumCountsRemove(m: map<UserId, nat>, k: UserId)
    requires k in m
    ensures SumCounts(m) == m[k] + SumCounts(m - {k})
    decreases |m|
  {
    MapHasKey(m);
    var j :| j in m && SumCounts(m) == m[j] + SumCounts(m - {j});
    if j != k {
      SumCountsRemove(m - {j}, k);
      SumCountsRemove(m - {k}, j);
      SwapRemoved(m, j, k);
    }
  }

  /** Removing two different keys in either order leaves the same map and keeps the other value. */
  lemma SwapRemoved(m: map<UserId, nat>, j: UserId, k: UserId)
    requires j in m && k in m && j != k
    ensures (m - {j}) - {k} == (m - {k}) - {j}
    ensures (m - {j})[k] == m[k] && (m - {k})[j] == m[j]
  {
  }

  /** Setting one key to `v` moves the sum by the difference between `v` and its old value. */
  lemma SumCountsUpdate(m: map<UserId, nat>, k: UserId, v: nat)
    ensures SumCounts(m[k := v]) == SumCounts(m) - (if k in m then m[k] else 0) + v
  {
    SumCountsRemove(m[k := v], k);
    assert m[k := v] - {k} == m - {k};
    if k in m {
      SumCountsRemove(m, k);
    } else {
      assert m - {k} == m;
    }
  }

  /** The invariant of the limiter: `_total` is the sum of the per-user counts. */
  ghost predicate Valid(l: Limiter) {
    l.total == SumCounts(l.usage)
  }

  lemma NewValid(maxFree: int)
    ensures Valid(New(maxFree))
  {
  }

  /** `can_use` keeps the total equal to the sum: the 0 it may insert adds nothing. */
  lemma CanUseKeepsValid(l: Limiter, u: UserId)
    requires Valid(l)
    ensures Valid(CanUse(l, u).0)
  {
    if u !in l.usage {
      SumCountsUpdate(l.usage, u, 0);
    }
  }

  /** `mark_used` keeps the total equal to the sum. */
  lemma MarkUsedKeepsValid(l: Limiter, u: UserId)
    requires Valid(l)
    ensures Valid(MarkUsed(l, u))
  {
    SumCountsUpdate(l.usage, u, Count(l, u) + 1);
  }

  // ---------------------------------------------------------------------------
  // Histories of calls
  // ---------------------------------------------------------------------------

  /** A call that changes the limiter's state: `can_use(u)` or `mark_used(u)`. */
  datatype Call = Query(u: UserId) | Use(u: UserId)

  function Apply(l: Limiter, c: Call): Limiter {
    match c
    case Query(u) => CanUse(l, u).0
    case Use(u) => MarkUsed(l, u)
  }

  /** The limiter after the calls of `calls`, first to last, on a fresh `FreeUsageLimiter(maxFree)`. */
  function Replay(maxFree: int, calls: seq<Call>): Limiter
    decreases |calls|
  {
    if |calls| == 0 then New(maxFree)
    else Apply(Replay(maxFree, calls[..|calls| - 1]), calls[|calls| - 1])
  }

  /** How many calls of `calls` are `mark_used(u)`. */
  function UsesOf(calls: seq<Call>, u: UserId): nat
    decreases |calls|
  {
    if |calls| == 0 then 0
    else UsesOf(calls[..|calls| - 1], u) + (if calls[|calls| - 1] == Use(u) then 1 else 0)
  }

  /** How many calls of `calls` are `mark_used` of anyone. */
  function NumUses(calls: seq<Call>): nat
    decreases |calls|
  {
    if |calls| == 0 then 0
    else NumUses(calls[..|calls| - 1]) + (if calls[|calls| - 1].Use? then 1 else 0)
  }

  /** Every user passed to `can_use` or `mark_used` in `calls`. */
  function CallUsers(calls: seq<Call>): set<UserId>
    decreases |calls|
  {
    if |calls| == 0 then {}
    else CallUsers(calls[..|calls| - 1]) + {calls[|calls| - 1].u}
  }

  /**
   After any history: each user's count is the number of `mark_used` calls for that user;
   the total is the number of all `mark_used` calls and equals the sum of the counts; and
   the users counted are exactly the users ever queried or marked.
   */
  lemma {:induction false} ReplayInvariant(maxFree: int, calls: seq<Call>)
    ensures var l := Replay(maxFree, calls);
            && l.maxFree == maxFree
            && (forall u :: Count(l, u) == UsesOf(calls, u))
            && TotalCount(l) == NumUses(calls)
            && Valid(l)
            && l.usage.Keys == CallUsers(calls)
            && UsersCount(l) == |CallUsers(calls)|
    decreases |calls|
  {
    if |calls| == 0 {
      NewValid(maxFree);
    } else {
      var prefix := calls[..|calls| - 1];
      ReplayInvariant(maxFree, prefix);
      var l := Replay(maxFree, prefix);
      match calls[|calls| - 1]
      case Query(u) => CanUseKeepsValid(l, u);
      case Use(u) => MarkUsedKeepsValid(l, u);
    }
  }

  /** `users_count()` never goes down, whatever call comes next. */
  lemma UsersCountMonotone(l: Limiter, c: Call)
    ensures UsersCount(Apply(l, c)) >= UsersCount(l)
  {
  }

  /** A user who was only asked about is counted as a user, though nothing was rendered. */
  lemma QueriedUserIsCounted(maxFree: int, u: UserId)
    ensures UsersCount(CanUse(New(maxFree), u).0) == 1
    ensures TotalCount(CanUse(New(maxFree), u).0) == 0
  {
  }

  /**
   With the default quota of one, a user is admitted exactly until the first `mark_used`
   for that user, whatever else has happened.
   */
  lemma OneFreeUse(calls: seq<Call>, u: UserId)
    ensures CanUse(Replay(DefaultMaxFree, calls), u).1 <==> UsesOf(calls, u) == 0
  {
    ReplayInvariant(DefaultMaxFree, calls);
  }

  /** The default scenario: admitted before `mark_used`, refused after one. */
  lemma DefaultAdmitsOnce(u: UserId)
    ensures CanUse(New(DefaultMaxFree), u).1
    ensures !CanUse(MarkUsed(New(DefaultMaxFree), u), u).1
  {
  }
}

=== FILE: processing.dfy ===
/**
 The request body `animate_photo_via_replicate` sends to Replicate: the model
 version plus an `input` dict holding the source image URL under the configured
 input key and, depending on the caller's prompt and three `WAN_*` environment
 strings, a prompt, a resolution, a duration and a seed.

 The input key (the module constant `REPLICATE_INPUT_KEY`), the model and the
 environment strings are parameters. A missing environment variable reads as "".
 */
module ReplicatePayload {
  import opened Wrappers
  import PyInt

  /** A value of the `input` dict: a string, or an int produced by `int(...)`. */
  datatype Value = Text(s: string) | Number(n: int)

  /** The body `{"version": model, "input": input}`. */
  datatype Prediction = Prediction(version: string, input: map<string, Value>)

  /** `os.getenv(name, "")` for `WAN_RESOLUTION`, `WAN_DURATION` and `WAN_SEED`. */
  datatype WanEnv = WanEnv(resolution: string, duration: string, seed: string)

  const PromptKey: string := "prompt"
  const ResolutionKey: string := "resolution"
  const DurationKey: string := "duration"
  const SeedKey: string := "seed"

  /** The keys that are added only under a condition. */
  const OptionalKeys: set<string> := {PromptKey, ResolutionKey, DurationKey, SeedKey}

  /** The four optional keys are pairwise different (they already differ in their first letter). */
  lemma OptionalKeysDistinct()
    ensures PromptKey != ResolutionKey && PromptKey != DurationKey && PromptKey != SeedKey
    ensures ResolutionKey != DurationKey && ResolutionKey != SeedKey && DurationKey != SeedKey
  {
  }

  /** Python truthiness of the optional prompt: neither None nor the empty string. */
  predicate HasPrompt(prompt: Option<string>) {
    prompt.Some? && prompt.value != ""
  }

  /**
   `int(text)` guarded by `if text:` and `except ValueError: pass`: the parsed number when the
   setting is non-empty and `int()` accepts it, None otherwise, and never an error.
   */
  function ParsedSetting(text: string): (r: Option<int>)
    ensures r.Some? <==> text != "" && PyInt.IsIntLiteral(PyInt.Strip(text))
    ensures r.Some? ==> r == PyInt.ParseInt(text)
  {
    if text != "" then PyInt.ParseInt(text) else None
  }

  /** A numeric setting ends up in the body. */
  predicate IntSetting(text: string) {
    ParsedSetting(text).Some?
  }

  /** `if present: input[key] = v`. */
  function PutIf(input: map<string, Value>, present: bool, key: string, v: Value): (r: map<string, Value>)
    ensures present ==> r == input[key := v]
    ensures !present ==> r == input
  {
    if present then input[key := v] else input
  }

  /** The image URL is replaced by a later field because the input key coincides with that field's key. */
  predicate InputKeyOverwritten(inputKey: string, prompt: Option<string>, env: WanEnv) {
    || (inputKey == PromptKey && HasPrompt(prompt))
    || (inputKey == ResolutionKey && env.resolution != "")
    || (inputKey == DurationKey && IntSetting(env.duration))
    || (inputKey == SeedKey && IntSetting(env.seed))
  }

  /**
   The request body: `version` is the model, the input key is always present, and no key
   other than the input key and the four optional keys is ever added. What each key holds
   is stated field by field by the lemmas below.
   */
  function BuildPayload(inputKey: string, imageUrl: string, model: string, prompt: Option<string>, env: WanEnv): (p: Prediction)
    ensures p.version == model
    ensures inputKey in p.input
    ensures p.input.Keys <= {inputKey} + OptionalKeys
  {
    var input0 := map[inputKey := Text(imageUrl)];
    var input1 := PutIf(input0, HasPrompt(prompt), PromptKey, Text(prompt.GetOr("")));
    var input2 := PutIf(input1, env.resolution != "", ResolutionKey, Text(env.resolution));
    var duration := ParsedSetting(env.duration);
    var input3 := PutIf(input2, duration.Some?, DurationKey, Number(duration.GetOr(0)));
    var seed := ParsedSetting(env.seed);
    var input4 := PutIf(input3, seed.Some?, SeedKey, Number(seed.GetOr(0)));
    Prediction(model, input4)
  }

  /** The input key holds the image URL unless a later field of the same name replaced it. */
  lemma ImageUrlField(inputKey: string, imageUrl: string, model: string, prompt: Option<string>, env: WanEnv)
    ensures !InputKeyOverwritten(inputKey, prompt, env) ==>
              BuildPayload(inputKey, imageUrl, model, prompt, env).input[inputKey] == Text(imageUrl)
  {
    if !InputKeyOverwritten(inputKey, prompt, env) {
      var input0 := map[inputKey := Text(imageUrl)];
      var input1 := PutIf(input0, HasPrompt(prompt), PromptKey, Text(prompt.GetOr("")));
      assert input1[inputKey] == Text(imageUrl);
      var input2 := PutIf(input1, env.resolution != "", ResolutionKey, Text(env.resolution));
      assert input2[inputKey] == Text(imageUrl);
      var duration := ParsedSetting(env.duration);
      var input3 := PutIf(input2, duration.Some?, DurationKey, Number(duration.GetOr(0)));
      assert input3[inputKey] == Text(imageUrl);
      var seed := ParsedSetting(env.seed);
      var input4 := PutIf(input3, seed.Some?, SeedKey, Number(seed.GetOr(0)));
      assert input4[inputKey] == Text(imageUrl);
      assert BuildPayload(inputKey, imageUrl, model, prompt, env).input == input4;
    }
  }

  /** `prompt` is present exactly for a non-empty prompt (or as the input key) and then holds that prompt. */
  lemma PromptField(inputKey: string, imageUrl: string, model: string, prompt: Option<string>, env: WanEnv)
    ensures var input := BuildPayload(inputKey, imageUrl, model, prompt, env).input;
            && (PromptKey in input <==> HasPrompt(prompt) || inputKey == PromptKey)
            && (HasPrompt(prompt) ==> input[PromptKey] == Text(prompt.value))
  {
  }

  /** `resolution` is present exactly for a non-empty `WAN_RESOLUTION` (or as the input key), copied verbatim. */
  lemma ResolutionField(inputKey: string, imageUrl: string, model: string, prompt: Option<string>, env: WanEnv)
    ensures var input := BuildPayload(inputKey, imageUrl, model, prompt, env).input;
            && (ResolutionKey in input <==> env.resolution != "" || inputKey == ResolutionKey)
            && (env.resolution != "" ==> input[ResolutionKey] == Text(env.resolution))
  {
  }

  /** `duration` is present exactly when `WAN_DURATION` is non-empty and parses (or as the input key), holding the parsed value. */
  lemma DurationField(inputKey: string, imageUrl: string, model: string, prompt: Option<string>, env: WanEnv)
    ensures var input := BuildPayload(inputKey, imageUrl, model, prompt, env).input;
            && (DurationKey in input <==> IntSetting(env.duration) || inputKey == DurationKey)
            && (IntSetting(env.duration) ==> input[DurationKey] == Number(ParsedSetting(env.duration).value))
  {
  }

  /** `seed` follows the same rule as `duration`, with `WAN_SEED`. */
  lemma SeedField(inputKey: string, imageUrl: string, model: string, prompt: Option<string>, env: WanEnv)
    ensures var input := BuildPayload(inputKey, imageUrl, model, prompt, env).input;
            && (SeedKey in input <==> IntSetting(env.seed) || inputKey == SeedKey)
            && (IntSetting(env.seed) ==> input[SeedKey] == Number(ParsedSetting(env.seed).value))
  {
  }

  /**
   What one key of the input dict holds, read off field by field: an optional field whose
   source is usable wins, otherwise the input key holds the image URL, otherwise the key
   is absent.
   */
  function ExpectedEntry(inputKey: string, imageUrl: string, prompt: Option<string>, env: WanEnv, key: string): Option<Value> {
    if key == SeedKey && IntSetting(env.seed) then Some(Number(ParsedSetting(env.seed).value))
    else if key == DurationKey && IntSetting(env.duration) then Some(Number(ParsedSetting(env.duration).value))
    else if key == ResolutionKey && env.resolution != "" then Some(Text(env.resolution))
    else if key == PromptKey && HasPrompt(prompt) then Some(Text(prompt.value))
    else if key == inputKey then Some(Text(imageUrl))
    else None
  }

  /** The body's input dict agrees with the field-by-field reading on every key. */
  lemma BuildPayloadMatchesExpected(inputKey: string, imageUrl: string, model: string, prompt: Option<string>,
                                    env: WanEnv, key: string)
    ensures var input := BuildPayload(inputKey, imageUrl, model, prompt, env).input;
            && (key in input <==> ExpectedEntry(inputKey, imageUrl, prompt, env, key).Some?)
            && (key in input ==> input[key] == ExpectedEntry(inputKey, imageUrl, prompt, env, key).value)
  {
    OptionalKeysDistinct();
    if key == SeedKey {
      SeedField(inputKey, imageUrl, model, prompt, env);
      ImageUrlField(inputKey, imageUrl, model, prompt, env);
    } else if key == DurationKey {
      DurationField(inputKey, imageUrl, model, prompt, env);
      ImageUrlField(inputKey, imageUrl, model, prompt, env);
    } else if key == ResolutionKey {
      ResolutionField(inputKey, imageUrl, model, prompt, env);
      ImageUrlField(inputKey, imageUrl, model, prompt, env);
    } else if key == PromptKey {
      PromptField(inputKey, imageUrl, model, prompt, env);
      ImageUrlField(inputKey, imageUrl, model, prompt, env);
    } else if key == inputKey {
      ImageUrlField(inputKey, imageUrl, model, prompt, env);
    }
  }

  /** The sources of all optional fields but `k`'s own agree. */
  predicate SameSourcesExcept(k: string, p1: Option<string>, e1: WanEnv, p2: Option<string>, e2: WanEnv) {
    && (k != PromptKey ==> p1 == p2)
    && (k != ResolutionKey ==> e1.resolution == e2.resolution)
    && (k != DurationKey ==> e1.duration == e2.duration)
    && (k != SeedKey ==> e1.seed == e2.seed)
  }

  /** On any key other than `k`, the field-by-field reading ignores `k`'s source. */
  lemma ExpectedEntryIndependent(inputKey: string, imageUrl: string, k: string, key: string,
                                 p1: Option<string>, e1: WanEnv, p2: Option<string>, e2: WanEnv)
    requires k in OptionalKeys && key != k
    requires SameSourcesExcept(k, p1, e1, p2, e2)
    ensures ExpectedEntry(inputKey, imageUrl, p1, e1, key) == ExpectedEntry(inputKey, imageUrl, p2, e2, key)
  {
  }

  /**
   Each optional field depends on its own source only: changing one source changes no
   entry of the input dict other than that source's own key.
   */
  lemma OptionalFieldsIndependent(inputKey: string, imageUrl: string, model: string, k: string,
                                  p1: Option<string>, e1: WanEnv, p2: Option<string>, e2: WanEnv)
    requires k in OptionalKeys
    requires SameSourcesExcept(k, p1, e1, p2, e2)
    ensures BuildPayload(inputKey, imageUrl, model, p1, e1).input - {k}
         == BuildPayload(inputKey, imageUrl, model, p2, e2).input - {k}
  {
    var in1 := BuildPayload(inputKey, imageUrl, model, p1, e1).input;
    var in2 := BuildPayload(inputKey, imageUrl, model, p2, e2).input;
    forall key | key != k
      ensures (key in in1 <==> key in in2) && (key in in1 ==> in1[key] == in2[key])
    {
      BuildPayloadMatchesExpected(inputKey, imageUrl, model, p1, e1, key);
      BuildPayloadMatchesExpected(inputKey, imageUrl, model, p2, e2, key);
      ExpectedEntryIndependent(inputKey, imageUrl, k, key, p1, e1, p2, e2);
    }
    AgreeingMapsEqualWithout(in1, in2, k);
  }

  /** Two maps that agree on every key but `k` are equal once `k` is removed. */
  lemma AgreeingMapsEqualWithout(m1: map<string, Value>, m2: map<string, Value>, k: string)
    requires forall key :: key != k ==> (key in m1 <==> key in m2) && (key in m1 ==> m1[key] == m2[key])
    ensures m1 - {k} == m2 - {k}
  {
    var a, b := m1 - {k}, m2 - {k};
    assert a.Keys == b.Keys;
    assert forall key :: key in a ==> a[key] == m1[key] && b[key] == m2[key];
  }

  /** A duration written as a decimal integer within the digit limit arrives in the body as exactly that integer. */
  lemma PrintedDurationArrives(inputKey: string, imageUrl: string, model: string, prompt: Option<string>,
                               env: WanEnv, n: int)
    requires env.duration == PyInt.ShowInt(n)
    requires |PyInt.ShowNat(if n < 0 then -n else n)| <= PyInt.MaxStrDigits
    ensures var input := BuildPayload(inputKey, imageUrl, model, prompt, env).input;
            DurationKey in input && input[DurationKey] == Number(n)
  {
    PyInt.ParseShowInt(n);
    assert ParsedSetting(env.duration) == Some(n);
    DurationField(inputKey, imageUrl, model, prompt, env);
  }

  /** A duration `int()` rejects, such as `5s`, is left out of the body without any error. */
  lemma UnparsableDurationLeftOut(inputKey: string, imageUrl: string, model: string, prompt: Option<string>, env: WanEnv)
    requires inputKey != DurationKey && env.duration == "5s"
    ensures DurationKey !in BuildPayload(inputKey, imageUrl, model, prompt, env).input
  {
    var t := "5s";
    assert !PyInt.IsSpace(t[0]) && !PyInt.IsSpace(t[1]);
    assert PyInt.Strip(t) == t;
    assert !PyInt.IsDigit(t[1]);
    DurationField(inputKey, imageUrl, model, prompt, env);
  }

  /** A duration of more digits than `int()` accepts is left out of the body without any error. */
  lemma LongDurationLeftOut(inputKey: string, imageUrl: string, model: string, prompt: Option<string>, env: WanEnv)
    requires inputKey != DurationKey
    requires PyInt.AllDigits(env.duration) && |env.duration| > PyInt.MaxStrDigits
    ensures DurationKey !in BuildPayload(inputKey, imageUrl, model, prompt, env).input
  {
    PyInt.TooManyDigitsRejected(env.duration);
    DurationField(inputKey, imageUrl, model, prompt, env);
  }

  /** With no prompt and an empty environment the body holds the image URL and nothing else. */
  lemma MinimalPayload(inputKey: string, imageUrl: string, model: string)
    ensures BuildPayload(inputKey, imageUrl, model, None, WanEnv("", "", "")).input == map[inputKey := Text(imageUrl)]
  {
  }
}

=== FILE: pyint.dfy ===
/**
 Python's `int(text)` on a string, as a simplified decimal parser: surrounding ASCII
 whitespace is ignored, then an optional `+` or `-` sign, then one to 4300 ASCII
 digits. Anything else is a `ValueError`, modelled as None.
 */
module PyInt {
  import opened Wrappers

  /**
   The whitespace `int()` skips around an ASCII literal: space and tab to carriage return.
   The separators 0x1C-0x1F are not among them, so `int("\x1c5")` is a `ValueError`.
   */
  predicate IsSpace(c: char) {
    c == ' ' || '\t' <= c <= '\r'
  }

  /**
   CPython's default limit on the number of digits of a decimal literal
   (`sys.int_info.default_max_str_digits`); a longer literal is a `ValueError`.
   Leading zeros count towards the limit.
   */
  const MaxStrDigits: nat := 4300

  predicate IsDigit(c: char) {
    '0' <= c <= '9'
  }

  predicate AllDigits(s: string) {
    forall i :: 0 <= i < |s| ==> IsDigit(s[i])
  }

  /** Drops leading whitespace. */
  function TrimLeft(s: string): (r: string)
    ensures |r| <= |s| && r == s[|s| - |r|..]
    ensures forall i :: 0 <= i < |s| - |r| ==> IsSpace(s[i])
    ensures |r| > 0 ==> !IsSpace(r[0])
    decreases |s|
  {
    if |s| > 0 && IsSpace(s[0]) then TrimLeft(s[1..]) else s
  }

  /** Drops trailing whitespace. */
  function TrimRight(s: string): (r: string)
    ensures |r| <= |s| && r == s[..|r|]
    ensures forall i :: |r| <= i < |s| ==> IsSpace(s[i])
    ensures |r| > 0 ==> !IsSpace(r[|r| - 1])
    decreases |s|
  {
    if |s| > 0 && IsSpace(s[|s| - 1]) then TrimRight(s[..|s| - 1]) else s
  }

  function Strip(s: string): string {
    TrimRight(TrimLeft(s))
  }

  /** The digits of a literal once an optional leading sign is taken off. */
  function Unsigned(t: string): string {
    if |t| > 0 && (t[0] == '+' || t[0] == '-') then t[1..] else t
  }

  /** The literal syntax `int()` accepts once whitespace is stripped: `[+-]?[0-9]{1,4300}`. */
  predicate IsIntLiteral(t: string) {
    0 < |Unsigned(t)| <= MaxStrDigits && AllDigits(Unsigned(t))
  }

  function DigitValue(c: char): int
    requires IsDigit(c)
  {
    c as int - '0' as int
  }

  /** The number a string of decimal digits denotes, most significant digit first. */
  function DigitsValue(ds: string): (n: nat)
    requires AllDigits(ds)
    decreases |ds|
  {
    if |ds| == 0 then 0
    else DigitsValue(ds[..|ds| - 1]) * 10 + DigitValue(ds[|ds| - 1])
  }

  /**
   `int(text)`: Some(value) exactly when the stripped text is a signed decimal literal within
   the digit limit, and then the value is the one its digits denote, negated by a leading `-`.
   */
  function ParseInt(text: string): (r: Option<int>)
    ensures r.Some? <==> IsIntLiteral(Strip(text))
    ensures r.Some? ==> (r.value < 0 ==> Strip(text)[0] == '-')
    ensures r.Some? ==> (if Strip(text)[0] == '-' then -r.value else r.value) == DigitsValue(Unsigned(Strip(text)))
  {
    var t := Strip(text);
    if |t| == 0 then None
    else if t[0] == '+' || t[0] == '-' then
      var ds := t[1..];
      if 0 < |ds| <= MaxStrDigits && AllDigits(ds) then
        var magnitude: int := DigitsValue(ds);
        Some(if t[0] == '-' then -magnitude else magnitude)
      else None
    else if |t| <= MaxStrDigits && AllDigits(t) then Some(DigitsValue(t) as int)
    else None
  }

  /** Decimal digits of `n` without leading zeros (Python's `str(n)` for n >= 0). */
  function ShowNat(n: nat): (r: string)
    ensures |r| > 0 && AllDigits(r)
    ensures DigitsValue(r) == n
    decreases n
  {
    var last := ['0' + (n % 10) as char];
    if n < 10 then last
    else
      var prefix := ShowNat(n / 10);
      assert (prefix + last)[..|prefix|] == prefix;
      prefix + last
  }

  /** Python's `str(n)`. */
  function ShowInt(n: int): string {
    if n < 0 then "-" + ShowNat(-n) else ShowNat(n)
  }

  /** Every integer printed in decimal within the digit limit parses back to itself. */
  lemma ParseShowInt(n: int)
    requires |ShowNat(if n < 0 then -n else n)| <= MaxStrDigits
    ensures ParseInt(ShowInt(n)) == Some(n)
  {
    var s := ShowInt(n);
    assert !IsSpace(s[0]) && !IsSpace(s[|s| - 1]);
    assert Strip(s) == s;
    if n < 0 {
      assert s[1..] == ShowNat(-n);
    } else {
      assert !(s[0] == '+' || s[0] == '-');
    }
  }

  /** Leading whitespace never changes what `int()` returns. */
  lemma ParseIgnoresLeadingSpace(c: char, text: string)
    requires IsSpace(c)
    ensures ParseInt([c] + text) == ParseInt(text)
  {
    var s := [c] + text;
    assert s[0] == c && s[1..] == text;
    assert Strip(s) == Strip(text);
    ParseReadsStrippedText(s, text);
  }

  /** `int()` looks at nothing but the stripped text. */
  lemma ParseReadsStrippedText(a: string, b: string)
    requires Strip(a) == Strip(b)
    ensures ParseInt(a) == ParseInt(b)
  {
  }

  /** Text made of digits only has nothing to strip. */
  lemma StripDigits(ds: string)
    requires AllDigits(ds)
    ensures Strip(ds) == ds
  {
    if |ds| > 0 {
      assert IsDigit(ds[0]) && IsDigit(ds[|ds| - 1]);
      assert TrimLeft(ds) == ds;
      assert TrimRight(ds) == ds;
    }
  }

  /** A run of digits longer than the limit is rejected, whatever its value. */
  lemma TooManyDigitsRejected(ds: string)
    requires AllDigits(ds) && |ds| > MaxStrDigits
    ensures ParseInt(ds) == None
  {
    StripDigits(ds);
    assert ds[0] != '+' && ds[0] != '-' by {
      assert IsDigit(ds[0]);
    }
  }

  /** An ASCII separator character in front of a literal is not whitespace to `int()`. */
  lemma SeparatorIsNotSpace(text: string)
    ensures ParseInt(['\U{1C}'] + text) == None
  {
    var s := ['\U{1C}'] + text;
    assert !IsSpace(s[0]);
    assert TrimLeft(s) == s;
    var t := Strip(s);
    if |t| > 0 {
      assert t[0] == '\U{1C}';
      assert !IsDigit(t[0]);
    }
  }
}

=== FILE: pystr.dfy ===
/**
 Python's `str.split("::")` and `"::".join(...)`, the two string operations the
 Telegram Stars invoice payload is built and parsed with.

 Python splits on a multi-character separator by repeatedly looking for its
 leftmost occurrence and cutting there, so occurrences never overlap and an
 empty string splits into one empty part.
 */
module PyStr {
  import opened Wrappers

  /** The separator the invoice payload uses. */
  const Sep: string := "::"

  /** `s` holds the separator at positions `i` and `i + 1`. */
  predicate SepAt(s: string, i: int) {
    0 <= i && i + 2 <= |s| && s[i] == ':' && s[i + 1] == ':'
  }

  /** `s` has no occurrence of the separator at all. */
  predicate NoSep(s: string) {
    forall j :: 0 <= j < |s| ==> !SepAt(s, j)
  }

  /** Leftmost index of the separator in `s` (Python's `s.find("::")`), None when there is none. */
  function FindSep(s: string): (r: Option<nat>)
    ensures r.Some? ==> SepAt(s, r.value) && forall j :: 0 <= j < r.value ==> !SepAt(s, j)
    ensures r.None? ==> NoSep(s)
    decreases |s|
  {
    if |s| < 2 then None
    else if s[0] == ':' && s[1] == ':' then Some(0)
    else
      assert forall j :: 1 <= j < |s| ==> (SepAt(s, j) <==> SepAt(s[1..], j - 1));
      assert !SepAt(s, 0);
      match FindSep(s[1..])
      case None => None
      case Some(i) => Some(i + 1)
  }

  /** `Sep.join(parts)`: the parts glued together with the separator between neighbours. */
  function Join(parts: seq<string>): string
    decreases |parts|
  {
    if |parts| == 0 then ""
    else if |parts| == 1 then parts[0]
    else parts[0] + Sep + Join(parts[1..])
  }

  /**
   `s.split("::")`: never empty, every part is free of the separator, joining the parts
   back with the separator gives `s` again, and every cut is at the leftmost separator, so
   no part but the last ends in a colon. Together these fix the parts uniquely.
   */
  function Split(s: string): (parts: seq<string>)
    ensures |parts| >= 1
    ensures forall k :: 0 <= k < |parts| ==> NoSep(parts[k])
    ensures Join(parts) == s
    ensures forall k :: 0 <= k < |parts| - 1 ==> parts[k] == [] || parts[k][|parts[k]| - 1] != ':'
    decreases |s|
  {
    match FindSep(s)
    case None => [s]
    case Some(i) =>
      var rest := Split(s[i + 2..]);
      assert i > 0 ==> !SepAt(s, i - 1);
      assert s == s[..i] + Sep + s[i + 2..];
      assert NoSep(s[..i]) by {
        forall j | 0 <= j < i ensures !SepAt(s[..i], j) {
          assert !SepAt(s, j);
        }
      }
      [s[..i]] + rest
  }

  /** A string without any colon cannot contain the separator. */
  lemma NoColonNoSep(s: string)
    requires ':' !in s
    ensures FindSep(s) == None
  {
  }

  /**
   The other half of the round trip: parts that contain no colon are recovered exactly by
   splitting their join.
   */
  lemma {:induction false} SplitJoin(parts: seq<string>)
    requires |parts| >= 1
    requires forall k :: 0 <= k < |parts| ==> ':' !in parts[k]
    ensures Split(Join(parts)) == parts
    decreases |parts|
  {
    if |parts| == 1 {
      NoColonNoSep(parts[0]);
    } else {
      var p := parts[0];
      var tail := Join(parts[1..]);
      var s := Join(parts);
      assert s == p + Sep + tail;
      assert SepAt(s, |p|);
      forall j | 0 <= j < |p| ensures !SepAt(s, j) {
        assert s[j] == p[j];
      }
      var i := FindSep(s).value;
      assert i == |p|;
      assert s[..i] == p;
      assert s[i + 2..] == tail;
      SplitJoin(parts[1..]);
      assert Split(s) == [p] + parts[1..];
    }
  }

  /** Four colons split into three empty parts, not into two one-colon parts. */
  lemma SplitFourColons()
    ensures Split("::::") == ["", "", ""]
  {
    var s := "::::";
    assert FindSep(s) == Some(0);
    assert FindSep(s[2..]) == Some(0);
    assert s[2..][2..] == "";
  }
}

=== FILE: stars.dfy ===
/**
 The Telegram Stars credit ledger: one row per user in the `users` table, holding
 the number of render credits, the total of stars paid for credit packs and the
 end of a 24-hour unlimited window, plus the three purchasable packs and the way a
 confirmed payment is settled against the ledger.

 The SQLite table is a finite map from user id to row. `time.time()` is the
 parameter `now` (whole seconds). Operations that run a `SELECT` through
 `_get_user` also insert a default row for an unseen user, so they return the
 new table alongside their answer.
 */
module Stars {
  import opened Wrappers
  import PyStr

  type UserId = int

  /** One row of the `users` table. `unlimitedUntil` is a Unix time in seconds. */
  datatype Account = Account(credits: int, starsTopupTotal: int, unlimitedUntil: int)

  type Ledger = map<UserId, Account>

  /** The row `INSERT INTO users(user_id)` creates: every column at its default of 0. */
  const NewAccount: Account := Account(0, 0, 0)

  const SecondsPerHour: int := 3600

  /** Length of the unlimited window a `buy_day` purchase grants, in hours. */
  const UnlimitedHours: int := 24

  /** The row a user reads: the stored one, or the column defaults for a user with no row. */
  function Row(db: Ledger, u: UserId): Account {
    if u in db then db[u] else NewAccount
  }

  /** `db'` differs from `db` at most in user `u`'s row, which it holds. No row disappears. */
  ghost predicate OnlyTouches(db: Ledger, db': Ledger, u: UserId) {
    && db'.Keys == db.Keys + {u}
    && forall v :: v in db && v != u ==> db'[v] == db[v]
  }

  /** SQL `UPDATE users SET ... WHERE user_id = u`: rewrites the row when there is one, else changes nothing. */
  function UpdateWhere(db: Ledger, u: UserId, f: Account -> Account): Ledger {
    if u in db then db[u := f(db[u])] else db
  }

  // ---------------------------------------------------------------------------
  // Ledger operations
  // ---------------------------------------------------------------------------

  /**
   `_get_user`: an unseen user gets a fresh all-zero row, which is also what is returned;
   a known user's row is returned and the table is left as it was.
   */
  function GetUser(db: Ledger, u: UserId): (r: (Ledger, Account))
    ensures u in r.0 && r.1 == r.0[u]
    ensures u in db ==> r.0 == db && r.1 == db[u]
    ensures u !in db ==> r.0 == db[u := NewAccount] && r.1 == NewAccount
  {
    if u in db then (db, db[u])
    else (db[u := NewAccount], NewAccount)
  }

  /**
   `add_credits`: the user's credits grow by exactly `amount` and the stars topup total by
   exactly `starsPaid`; the unlimited window and every other row stay as they were.
   */
  function AddCredits(db: Ledger, u: UserId, amount: int, starsPaid: int): (r: Ledger)
    ensures OnlyTouches(db, r, u)
    ensures r[u].credits == Row(db, u).credits + amount
    ensures r[u].starsTopupTotal == Row(db, u).starsTopupTotal + starsPaid
    ensures r[u].unlimitedUntil == Row(db, u).unlimitedUntil
  {
    var (db1, _) := GetUser(db, u);
    UpdateWhere(db1, u, (a: Account) => a.(credits := a.credits + amount, starsTopupTotal := a.starsTopupTotal + starsPaid))
  }

  /**
   `set_unlimited_day`, as written: the window of an existing user ends `hours` hours after
   `now`. There is no `_get_user` before the `UPDATE`, so for a user with no row nothing
   changes at all.
   */
  function SetUnlimitedDay(db: Ledger, u: UserId, hours: int, now: int): (r: Ledger)
    ensures r.Keys == db.Keys
    ensures u in db ==> r[u] == db[u].(unlimitedUntil := now + hours * SecondsPerHour)
    ensures u !in db ==> r == db
    ensures forall v :: v in db && v != u ==> r[v] == db[v]
  {
    UpdateWhere(db, u, (a: Account) => a.(unlimitedUntil := now + hours * SecondsPerHour))
  }

  /** `has_unlimited`: true exactly while `now` is strictly before the end of the user's window. */
  function HasUnlimited(db: Ledger, u: UserId, now: int): (r: (Ledger, bool))
    ensures r.1 <==> now < Row(db, u).unlimitedUntil
    ensures r.0 == GetUser(db, u).0
  {
    var (db1, row) := GetUser(db, u);
    (db1, now < row.unlimitedUntil)
  }

  /**
   `spend_credit`: the unlimited window is checked first and then costs nothing; otherwise a
   positive balance is debited by exactly one; otherwise the answer is false and the
   balance is left alone.
   */
  function SpendCredit(db: Ledger, u: UserId, now: int): (r: (Ledger, bool))
    ensures OnlyTouches(db, r.0, u)
    ensures now < Row(db, u).unlimitedUntil ==> r.1 && r.0[u] == Row(db, u)
    ensures now >= Row(db, u).unlimitedUntil && Row(db, u).credits > 0 ==>
              r.1 && r.0[u] == Row(db, u).(credits := Row(db, u).credits - 1)
    ensures now >= Row(db, u).unlimitedUntil && Row(db, u).credits <= 0 ==>
              !r.1 && r.0[u] == Row(db, u)
  {
    var (db1, unlimited) := HasUnlimited(db, u, now);
    if unlimited then (db1, true)
    else
      var (db2, row) := GetUser(db1, u);
      if row.credits > 0 then (UpdateWhere(db2, u, (a: Account) => a.(credits := a.credits - 1)), true)
      else (db2, false)
  }

  /** `get_balance`: the stored number of credits (0 for an unseen user, who now gets a row). */
  function GetBalance(db: Ledger, u: UserId): (r: (Ledger, int))
    ensures r.1 == Row(db, u).credits
    ensures r.0 == GetUser(db, u).0
  {
    var (db1, row) := GetUser(db, u);
    (db1, row.credits)
  }

  // ---------------------------------------------------------------------------
  // Packs and invoice payloads
  // ---------------------------------------------------------------------------

  /** A purchasable pack: its price in stars, the credits it grants, its title, and whether it is the day pass. */
  datatype Pack = Pack(stars: nat, credits: nat, title: string, unlimited: bool)

  /** The `PACKS` table. Only the day pass carries `"unlimited": True`; elsewhere the key is absent. */
  const Packs: map<string, Pack> := map[
    "buy_1" := Pack(150, 1, "1 оживление", false),
    "buy_5" := Pack(600, 5, "5 оживлений", false),
    "buy_day" := Pack(1200, 0, "Безлимит на сутки", true)
  ]

  /** The pack a payment settles as when its payload cannot be read. */
  const FallbackPackKey: string := "buy_1"

  /** The invoice payload for a pack: `stars::<key>::v1`, the key framed by a fixed prefix and version. */
  function InvoicePayload(key: string): (r: string)
    ensures |r| == |key| + 11
    ensures r[..7] == "stars::" && r[7..|r| - 4] == key && r[|r| - 4..] == "::v1"
  {
    "stars" + PyStr.Sep + key + PyStr.Sep + "v1"
  }

  /**
   The pack key the payment handler unpacks from `invoice_payload or ""`: the middle part
   when the text splits on `::` into exactly three parts (the first and last parts are
   not looked at), otherwise `buy_1`.
   */
  function PayloadPackKey(payload: Option<string>): (key: string)
    ensures PyStr.NoSep(key)
    ensures var text := payload.GetOr(""); var parts := PyStr.Split(text);
            |parts| == 3 ==> text == parts[0] + PyStr.Sep + key + PyStr.Sep + parts[2]
    ensures |PyStr.Split(payload.GetOr(""))| != 3 ==> key == FallbackPackKey
  {
    var parts := PyStr.Split(payload.GetOr(""));
    if |parts| == 3 then
      assert PyStr.Join(parts) == parts[0] + PyStr.Sep + PyStr.Join(parts[1..]);
      assert PyStr.Join(parts[1..]) == parts[1] + PyStr.Sep + PyStr.Join(parts[2..]);
      assert PyStr.Join(parts[2..]) == parts[2];
      parts[1]
    else
      assert PyStr.NoSep(FallbackPackKey) by {
        assert forall j :: 0 <= j < |FallbackPackKey| ==> FallbackPackKey[j] != ':';
      }
      FallbackPackKey
  }

  /** `PACKS.get(pack_key, PACKS["buy_1"])`: always one of the three packs; an unknown key gives `buy_1`. */
  function SettledPack(payload: Option<string>): (p: Pack)
    ensures p in Packs.Values
    ensures PayloadPackKey(payload) in Packs ==> p == Packs[PayloadPackKey(payload)]
    ensures PayloadPackKey(payload) !in Packs ==> p == Packs[FallbackPackKey]
  {
    var key := PayloadPackKey(payload);
    if key in Packs then Packs[key] else Packs[FallbackPackKey]
  }

  /**
   The settlement rule of the successful-payment handler, as written: the day pass sets the
   unlimited window (and, through `SetUnlimitedDay`, only for a user who already has a
   row), adding neither credits nor stars; a credit pack adds its credits and the stars
   actually paid.
   */
  function SettlePayment(db: Ledger, u: UserId, payload: Option<string>, starsAmount: int, now: int): (r: Ledger)
    ensures SettledPack(payload).unlimited ==>
              && r.Keys == db.Keys
              && (u in db ==> r[u] == db[u].(unlimitedUntil := now + UnlimitedHours * SecondsPerHour))
              && (forall v :: v in db && v != u ==> r[v] == db[v])
    ensures !SettledPack(payload).unlimited ==>
              && OnlyTouches(db, r, u)
              && r[u].credits == Row(db, u).credits + SettledPack(payload).credits
              && r[u].starsTopupTotal == Row(db, u).starsTopupTotal + starsAmount
              && r[u].unlimitedUntil == Row(db, u).unlimitedUntil
  {
    var pack := SettledPack(payload);
    if pack.unlimited then SetUnlimitedDay(db, u, UnlimitedHours, now)
    else AddCredits(db, u, pack.credits, starsAmount)
  }

  /**
   `set_unlimited_day` as evidently intended: the row is fetched (and created if missing)
   first, so every user ends up with the window, keeping credits and stars total.
   */
  function SetUnlimitedDayCorrected(db: Ledger, u: UserId, hours: int, now: int): (r: Ledger)
    ensures OnlyTouches(db, r, u)
    ensures r[u] == Row(db, u).(unlimitedUntil := now + hours * SecondsPerHour)
  {
    var (db1, _) := GetUser(db, u);
    SetUnlimitedDay(db1, u, hours, now)
  }

  /** The settlement rule with the corrected day pass; credit packs settle exactly as written. */
  function SettlePaymentCorrected(db: Ledger, u: UserId, payload: Option<string>, starsAmount: int, now: int): (r: Ledger)
    ensures OnlyTouches(db, r, u)
    ensures SettledPack(payload).unlimited ==>
              r[u] == Row(db, u).(unlimitedUntil := now + UnlimitedHours * SecondsPerHour)
    ensures !SettledPack(payload).unlimited ==> r == SettlePayment(db, u, payload, starsAmount, now)
  {
    var pack := SettledPack(payload);
    if pack.unlimited then SetUnlimitedDayCorrected(db, u, UnlimitedHours, now)
    else AddCredits(db, u, pack.credits, starsAmount)
  }

  // ---------------------------------------------------------------------------
  // Properties of single operations
  // ---------------------------------------------------------------------------

  /** Reading a user twice is the same as reading once. */
  lemma GetUserIdempotent(db: Ledger, u: UserId)
    ensures GetUser(GetUser(db, u).0, u) == GetUser(db, u)
  {
  }

  /** A fresh user is never inside an unlimited window at a non-negative time. */
  lemma FreshUserNotUnlimited(db: Ledger, u: UserId, now: int)
    requires u !in db && now >= 0
    ensures !HasUnlimited(db, u, now).1
  {
  }

  /** Two top-ups add up: crediting `a1` then `a2` is crediting `a1 + a2` at once. */
  lemma AddCreditsAdditive(db: Ledger, u: UserId, a1: int, s1: int, a2: int, s2: int)
    ensures AddCredits(AddCredits(db, u, a1, s1), u, a2, s2) == AddCredits(db, u, a1 + a2, s1 + s2)
  {
  }

  /**
   Buying one credit and then spending it outside an unlimited window returns the balance
   to what it was: a debit is exactly the one credit a `buy_1` adds.
   */
  lemma SpendUndoesSingleCredit(db: Ledger, u: UserId, starsPaid: int, now: int)
    requires Row(db, u).credits >= 0
    requires now >= Row(db, u).unlimitedUntil
    ensures var r := SpendCredit(AddCredits(db, u, 1, starsPaid), u, now);
            r.1 && GetBalance(r.0, u).1 == GetBalance(db, u).1
  {
  }

  /** For an existing user the day window is active at `t` exactly when `t < now + 3600 * hours`. */
  lemma UnlimitedWindow(db: Ledger, u: UserId, hours: int, now: int, t: int)
    requires u in db
    ensures HasUnlimited(SetUnlimitedDay(db, u, hours, now), u, t).1 <==> t < now + hours * SecondsPerHour
  {
  }

  // ---------------------------------------------------------------------------
  // Payload round trip and fallback
  // ---------------------------------------------------------------------------

  /** Any colon-free key survives the trip through an invoice payload. */
  lemma PayloadRoundTrip(key: string)
    requires ':' !in key
    ensures PayloadPackKey(Some(InvoicePayload(key))) == key
  {
    var parts := ["stars", key, "v1"];
    assert PyStr.Join(parts[2..]) == "v1";
    assert PyStr.Join(parts[1..]) == key + PyStr.Sep + "v1";
    assert PyStr.Join(parts) == InvoicePayload(key);
    PyStr.SplitJoin(parts);
  }

  /** Every pack of the table is recovered from its own invoice payload. */
  lemma EveryPackRoundTrips(key: string)
    requires key in Packs
    ensures SettledPack(Some(InvoicePayload(key))) == Packs[key]
  {
    assert ':' !in key by {
      assert key == "buy_1" || key == "buy_5" || key == "buy_day";
    }
    PayloadRoundTrip(key);
  }

  /**
   A payload made of colon-free parts settles by its middle part alone when there are three
   parts (prefix and version are not checked), and as `buy_1` for any other number of parts.
   */
  lemma {:induction false} SettledPackOfParts(parts: seq<string>)
    requires |parts| >= 1
    requires forall k :: 0 <= k < |parts| ==> ':' !in parts[k]
    ensures |parts| != 3 ==> SettledPack(Some(PyStr.Join(parts))) == Packs[FallbackPackKey]
    ensures |parts| == 3 && parts[1] in Packs ==> SettledPack(Some(PyStr.Join(parts))) == Packs[parts[1]]
    ensures |parts| == 3 && parts[1] !in Packs ==> SettledPack(Some(PyStr.Join(parts))) == Packs[FallbackPackKey]
  {
    PyStr.SplitJoin(parts);
  }

  /** A payload that does not split on `::` into exactly three parts settles as `buy_1`. */
  lemma MalformedPayloadFallsBack(payload: Option<string>)
    requires |PyStr.Split(payload.GetOr(""))| != 3
    ensures SettledPack(payload) == Packs[FallbackPackKey]
  {
  }

  /** A payment with no payload at all settles as `buy_1`. */
  lemma MissingPayloadIsSingleCredit()
    ensures SettledPack(None) == Packs[FallbackPackKey]
    ensures SettledPack(Some("")) == Packs[FallbackPackKey]
  {
  }

  // ---------------------------------------------------------------------------
  // Settlement
  // ---------------------------------------------------------------------------

  /** Paying for `buy_1` or `buy_5` adds exactly 1 or 5 credits and the stars paid. */
  lemma SettleCreditPack(db: Ledger, u: UserId, key: string, starsAmount: int, now: int)
    requires key == "buy_1" || key == "buy_5"
    ensures var r := SettlePayment(db, u, Some(InvoicePayload(key)), starsAmount, now);
            && u in r
            && Row(r, u).credits == Row(db, u).credits + (if key == "buy_1" then 1 else 5)
            && Row(r, u).starsTopupTotal == Row(db, u).starsTopupTotal + starsAmount
            && Row(r, u).unlimitedUntil == Row(db, u).unlimitedUntil
  {
    EveryPackRoundTrips(key);
  }

  /** Paying for the day pass as a user with a row sets the window to end 24 hours on and adds no credits. */
  lemma SettleDayPassExistingUser(db: Ledger, u: UserId, starsAmount: int, now: int, t: int)
    requires u in db
    ensures var r := SettlePayment(db, u, Some(InvoicePayload("buy_day")), starsAmount, now);
            && Row(r, u).credits == db[u].credits
            && Row(r, u).starsTopupTotal == db[u].starsTopupTotal
            && (HasUnlimited(r, u, t).1 <==> t < now + UnlimitedHours * SecondsPerHour)
  {
    EveryPackRoundTrips("buy_day");
  }

  /**
   The defect of the code as written: a user with no row who pays for the day pass is left
   with no row and no window, even at the moment of payment.
   */
  lemma DayPassLostForNewUser(db: Ledger, u: UserId, starsAmount: int, now: int)
    requires u !in db && now >= 0
    ensures var r := SettlePayment(db, u, Some(InvoicePayload("buy_day")), starsAmount, now);
            r == db && !HasUnlimited(r, u, now).1
  {
    var payload := Some(InvoicePayload("buy_day"));
    EveryPackRoundTrips("buy_day");
    assert SettledPack(payload).unlimited;
    var r := SettlePayment(db, u, payload, starsAmount, now);
    assert r == SetUnlimitedDay(db, u, UnlimitedHours, now);
  }

  /** With the correction every payer of the day pass is unlimited for the next 24 hours. */
  lemma DayPassGrantsWindow(db: Ledger, u: UserId, starsAmount: int, now: int, t: int)
    requires now <= t < now + UnlimitedHours * SecondsPerHour
    ensures var r := SettlePaymentCorrected(db, u, Some(InvoicePayload("buy_day")), starsAmount, now);
            HasUnlimited(r, u, t).1 && Row(r, u).credits == Row(db, u).credits
  {
    EveryPackRoundTrips("buy_day");
    assert SettledPack(Some(InvoicePayload("buy_day"))).unlimited;
  }

  // ---------------------------------------------------------------------------
  // Sequences of operations
  // ---------------------------------------------------------------------------

  /** One call into the ledger, with the time it reads where it reads one. */
  datatype Op =
    | AddCreditsOp(u: UserId, amount: int, starsPaid: int)
    | SetUnlimitedDayOp(u: UserId, hours: int, now: int)
    | HasUnlimitedOp(u: UserId, now: int)
    | SpendCreditOp(u: UserId, now: int)
    | GetBalanceOp(u: UserId)
    | SettlePaymentOp(u: UserId, payload: Option<string>, starsAmount: int, now: int)

  /** The table after one call; `corrected` selects the corrected settlement of the day pass. */
  function Step(db: Ledger, op: Op, corrected: bool): Ledger {
    match op
    case AddCreditsOp(u, amount, starsPaid) => AddCredits(db, u, amount, starsPaid)
    case SetUnlimitedDayOp(u, hours, now) => SetUnlimitedDay(db, u, hours, now)
    case HasUnlimitedOp(u, now) => HasUnlimited(db, u, now).0
    case SpendCreditOp(u, now) => SpendCredit(db, u, now).0
    case GetBalanceOp(u) => GetBalance(db, u).0
    case SettlePaymentOp(u, payload, starsAmount, now) =>
      if corrected then SettlePaymentCorrected(db, u, payload, starsAmount, now)
      else SettlePayment(db, u, payload, starsAmount, now)
  }

  /** The table after the calls of `ops`, first to last. */
  function Run(db: Ledger, ops: seq<Op>, corrected: bool): Ledger
    decreases |ops|
  {
    if |ops| == 0 then db
    else Step(Run(db, ops[..|ops| - 1], corrected), ops[|ops| - 1], corrected)
  }

  ghost predicate CreditsNonNegative(db: Ledger) {
    forall u :: u in db ==> db[u].credits >= 0
  }

  /** Every explicit top-up in `ops` adds a non-negative amount. */
  predicate NonNegativeTopUps(ops: seq<Op>) {
    forall k :: 0 <= k < |ops| ==> (ops[k].AddCreditsOp? ==> ops[k].amount >= 0)
  }

  /** No single call can push a balance below zero, given a non-negative top-up. */
  lemma StepKeepsCreditsNonNegative(db: Ledger, op: Op, corrected: bool)
    requires CreditsNonNegative(db)
    requires op.AddCreditsOp? ==> op.amount >= 0
    ensures CreditsNonNegative(Step(db, op, corrected))
  {
  }

  /**
   Starting from non-negative balances, no sequence of calls whose top-ups are non-negative
   ever makes a balance negative.
   */
  lemma {:induction false} RunKeepsCreditsNonNegative(db: Ledger, ops: seq<Op>, corrected: bool)
    requires CreditsNonNegative(db)
    requires NonNegativeTopUps(ops)
    ensures CreditsNonNegative(Run(db, ops, corrected))
    decreases |ops|
  {
    if |ops| > 0 {
      var prefix := ops[..|ops| - 1];
      assert NonNegativeTopUps(prefix) by {
        forall k | 0 <= k < |prefix| ensures (prefix[k].AddCreditsOp? ==> prefix[k].amount >= 0) {
          assert prefix[k] == ops[k];
        }
      }
      RunKeepsCreditsNonNegative(db, prefix, corrected);
      StepKeepsCreditsNonNegative(Run(db, prefix, corrected), ops[|ops| - 1], corrected);
    }
  }
}

=== FILE: wrappers.dfy ===
/** The optional-value datatype shared by the other modules (Python's `None` versus a value). */
module Wrappers {

  datatype Option<+T> = None | Some(value: T) {

    /** Returns the value held in Some, or `default` for None. */
    function GetOr(default: T): T {
      match this
      case Some(v) => v
      case None => default
    }
  }
}
